=== FILE: README.md ===
# Customer table and auth handlers of the renewable-energy portal

This project models two pieces of the portal in Dafny.

1. **The admin customer table** (`client/src/components/Auth/AdminData.jsx`). It covers:
   - the search filter over customer rows;
   - the five-row page slice, the page count and the Previous/Next buttons;
   - the reset to page 1 when the search changes;
   - the file-type classification of a customer's documents;
   - the image-extension fallback;
   - the filename a document gets when it is downloaded.
2. **The auth handlers** (`server/controller/auth.controller.js`): admin and user registration, admin and user login, admin and user logout, the partial profile update and the customer listing. Each handler is a pure function from a store and a request to a new store and a response. The store holds the Admin ("Auth") and User collections as sequences in insertion order. A response is a status, a JSON body and a cookie operation.

The foreign calls are fields of a `Lib` value and stay uninterpreted:
- `validator.isEmail`, `isMobilePhone(_, "en-IN")` and `isStrongPassword`;
- `bcrypt.hash` and `bcrypt.compare`;
- `jwt.sign`.

`new URL(u).pathname` is a function parameter that returns `None` where the constructor throws. `Date.now()` is a parameter too. `findOne` returns the first match in insertion order. `checkEmpty` (in `server/utils`) is not part of this model; the handlers' use of it is read as listing, in order, the names of the fields that were not sent or were sent as `""`.

Files:
- `wrappers.dfy`: the `Option` type and JavaScript truthiness of optional strings.
- `text.dfy`: `toLowerCase`, `includes`, `split('.').pop()`, the `/\.[^/.]+$/` replacement and decimal rendering.
- `customer_table.dfy`: the filter, the pages and the table's state machine.
- `file_types.dfy`: classification and download names.
- `auth_store.dfy`: records, store invariant, library calls and documents.
- `auth_handlers.dfy`: the eight handlers and the cookie jar.
- `auth_properties.dfy`: lemmas that relate several handlers.

Behaviour of the code that the model keeps as it is:
- **Password hash in user login.** User login answers with `data: user`, the whole User document. `User.findOne` there does not exclude the password, and the handler reads `user.password` for the compare, so the document includes the hash (`UserLoginSendsPasswordHash`). Admin login does remove it (`AdminLoginHidesPassword`).
- **Admin logout cookie.** Admin login sets the cookie `AdminToken`; admin logout clears `authToken` instead (`AdminLogoutKeepsToken`).
- **Empty fields in profile update.** A field sent as `""` is left unchanged, as an omitted one is, because the update tests truthiness (`Patched`).
- **Registration email.** User registration sends no notification email.
- **Listing and update routing.** `Findcustomer` and `updateUserProfile` are not in the route table (`server/routes/auth.routes.js`), and no admin guard is visible on them.

## Model

| member | source | states |
|---|---|---|
| Text.Includes | client/src/components/Auth/AdminData.jsx:55-58 | `includes` holds exactly when the term occurs at some position of the string |
| Text.Lower | client/src/components/Auth/AdminData.jsx:55-58 | `toLowerCase` keeps the length, maps each ASCII capital to its small letter, keeps every other character, and leaves no ASCII capital behind |
| Text.AfterLastDot | client/src/components/Auth/AdminData.jsx:94-96 | `split('.').pop()` is the longest dot-free suffix: a suffix without dots, preceded by a dot unless it is the whole string |
| Text.StripExtension | client/src/components/Auth/AdminData.jsx:128 | the replacement drops the text from the unique position where `\.[^/.]+$` matches, and leaves the name unchanged when the regex matches nowhere |
| Text.StripAppendedExtension | client/src/components/Auth/AdminData.jsx:128 | stripping undoes appending a dot and a non-empty suffix free of dots and slashes: the base comes back |
| Text.AfterLastDotOfDotted | client/src/components/Auth/AdminData.jsx:195 | for `a + "." + b` with `b` free of dots, the last segment is `b` |
| CustomerTable.Filtered | client/src/components/Auth/AdminData.jsx:53-59 | the kept rows are an order-preserving subsequence of the users, each row kept as often as it occurs when it matches and never otherwise; a row is kept iff the lower-cased term is in its lower-cased Name, email or companyName or the raw term is in its mobile, with a missing field read as "" |
| CustomerTable.SearchIgnoresCase | client/src/components/Auth/AdminData.jsx:54-58 | for a customer whose mobile has no ASCII letters, a term and its lower-cased form match the same way: the search ignores the case of the term |
| CustomerTable.EmptySearchKeepsAll | client/src/components/Auth/AdminData.jsx:53-59 | an empty search keeps every row in order |
| CustomerTable.Slice | client/src/components/Auth/AdminData.jsx:61-64 | for non-negative bounds, `slice` returns the elements from `start` on, as many as lie between `start` and `end` once both are cut back to the length, and nothing when `end` is not past `start` |
| CustomerTable.PageCount | client/src/components/Auth/AdminData.jsx:372 | `Math.ceil(n / 5)` is the least number of five-row pages that holds `n` rows |
| CustomerTable.CurrentPage | client/src/components/Auth/AdminData.jsx:61-64 | for page p >= 1 the rows shown are the contiguous slice `[(p-1)*5, p*5)` clipped to the list: at most 5 rows and at most the list's length, and none beyond the page count |
| CustomerTable.RowOnItsPage | client/src/components/Auth/AdminData.jsx:61-64 | row i of the filtered list is shown on page i/5+1 at position i%5, and that page is within the page count |
| CustomerTable.PagesCoverList | client/src/components/Auth/AdminData.jsx:61-64 | pages 1 to the page count, laid end to end, are exactly the filtered list |
| CustomerTable.Step | client/src/components/Auth/AdminData.jsx:300-378 | typing a search term resets the page to 1; Previous moves back one page from any page above 1 and stays at 1 from page 1; Next keeps the term and moves forward exactly one page iff the page is below the page count, and otherwise stays |
| CustomerTable.StepKeepsPageInRange | client/src/components/Auth/AdminData.jsx:361-378 | every action keeps the page between 1 and max(1, ceil(n/5)) for the current search |
| CustomerTable.ReachablePagesInRange | client/src/components/Auth/AdminData.jsx:361-378 | from the first render, any sequence of searches and Previous/Next clicks keeps the page in [1, max(1, ceil(n/5))] |
| CustomerTable.InRangePageShowsRows | client/src/components/Auth/AdminData.jsx:311 | on an in-range page of a non-empty result at least one row is shown |
| FileTypes.ExtensionFromUrl | client/src/components/Auth/AdminData.jsx:89-98 | no extension for a missing or empty URL; otherwise the lower-cased last dot segment of the parsed path, or of the raw URL when parsing throws, which contains no dot |
| FileTypes.ImageExtension | client/src/components/Auth/AdminData.jsx:101-105 | `getImageExtension` returns one of the eight image extensions: the URL's extension when it is one of them, 'jpg' otherwise |
| FileTypes.ImageExtensionOf | client/src/components/Auth/AdminData.jsx:101-105 | the result is always one of the eight image extensions: the URL's own extension when it is one, 'jpg' otherwise |
| FileTypes.ClassOf | client/src/components/Auth/AdminData.jsx:196-200 | an extension classes as exactly one of the five kinds, with each of pdf, image, document and spreadsheet iff the extension is in its list |
| FileTypes.FileType | client/src/components/Auth/AdminData.jsx:193-201 | a truthy explicit fileType is returned lower-cased; otherwise the result is one of the five kinds, and 'unknown' when there is no URL |
| FileTypes.NoHintClassFromUrl | client/src/components/Auth/AdminData.jsx:193-200 | without a hint, a URL `<stem>.<ext>` with `ext` free of dots is classed by the lower-cased `ext` alone |
| FileTypes.NoHintClassFromDotFreeUrl | client/src/components/Auth/AdminData.jsx:195 | without a hint, a URL with no dot is its own last segment, so it is classed by the whole URL lower-cased |
| FileTypes.IcoIsUnknownButAnImageExtension | client/src/components/Auth/AdminData.jsx:193-201 | any URL ending in '.ico', whether it fails to parse or parses to a path ending in '.ico', classes as unknown without a hint, yet its image extension is 'ico' |
| FileTypes.ExtensionFor | client/src/components/Auth/AdminData.jsx:131-139 | the extension table has an entry exactly for the five kinds: pdf gives 'pdf', image the image extension, document 'docx', spreadsheet 'xlsx', and unknown the URL's extension when it is non-empty and 'file' otherwise; any other key reads as undefined |
| Text.Decimal | client/src/components/Auth/AdminData.jsx:125 | `${Date.now()}` renders the number as decimal digits, most significant first, that denote exactly that number and have no leading zero |
| FileTypes.DownloadBaseName | client/src/components/Auth/AdminData.jsx:125 | a truthy originalName is the base; the `document_<now>` fallback has no extension for the regex to strip |
| FileTypes.DownloadNameAsWritten | client/src/components/Auth/AdminData.jsx:125-140 | the download name is the base name cut where `\.[^/.]+$` matches (whole when it matches nowhere), a dot, and the table's extension, or the text "undefined" when the table has no entry; without an originalName it is `document_<now>.<extension>` |
| FileTypes.DownloadNameReplacesExtension | client/src/components/Auth/AdminData.jsx:125-140 | a file named `<stem>.<e>`, with `e` non-empty and free of dots and slashes, downloads as `<stem>.<table entry for its class>`; a class outside the five gives `<stem>.undefined` as written and `<stem>.<'unknown' entry>` once corrected |
| FileTypes.MimeHintDownloadsAsUndefined | client/src/components/Auth/AdminData.jsx:139-140 | a file named `<stem>.pdf` with the fileType hint "application/pdf" downloads as `<stem>.undefined` |
| FileTypes.DownloadName | client/src/components/Auth/AdminData.jsx:125-140 | the corrected name always ends in the extension of one of the five kinds, agrees with the written one whenever the type is a known kind, and uses the 'unknown' entry for any other type |
| FileTypes.NoHintNameIsDefined | client/src/components/Auth/AdminData.jsx:193-201 | without a hint the table always has an entry, so the written and corrected names coincide |
| AuthStore.FindFirst | server/controller/auth.controller.js:28 | `findOne` yields the first matching record, or nothing exactly when no record matches |
| AuthStore.FindFirstAppended | server/controller/auth.controller.js:116-125 | a record appended to a collection with no match for its email becomes that email's first match |
| AuthStore.AdminDoc | server/controller/auth.controller.js:54-78 | an Admin record read back has exactly the fields _id, Name, email, mobile and password, with the record's values |
| AuthStore.WithoutPassword | server/controller/auth.controller.js:78 | the sanitized document has every field of the original except `password`, with the same values |
| AuthStore.UserDoc | server/controller/auth.controller.js:171 | a User document carries its email and its stored password hash, and `files` only when the record has one |
| AuthHandlers.EmptyFields | server/controller/auth.controller.js:95-98 | the empty check names exactly the required fields that are missing or empty |
| AuthHandlers.RegistrationFailure | server/controller/auth.controller.js:13-25 | validation passes iff every field is present and email, mobile and password pass; otherwise the first failure in the order empty, email, mobile, password is reported |
| AuthHandlers.AdminRegister | server/controller/auth.controller.js:10-45 | the response is 400 iff the store is unchanged; a 201 appends exactly one Admin with the next id, the given fields and hash(password), leaves Users alone, and keeps the store invariant (unique emails and ids) |
| AuthHandlers.UserRegister | server/controller/auth.controller.js:91-138 | the response is 400 iff the store is unchanged; a 201 appends exactly one User with the next id, the given name, email, mobile, companyName and district, hash(password) and no files, keeps the earlier Users and Admins, and keeps the store invariant |
| AuthHandlers.AdminLogin | server/controller/auth.controller.js:47-81 | the store is unchanged; the status is 200, 400 or 401; a cookie is set iff the status is 200, it is `AdminToken` and its value is the token in the body; the body's data never has a password field |
| AuthHandlers.UserLogin | server/controller/auth.controller.js:140-172 | the store is unchanged; the status is 200, 400 or 401; a cookie is set iff the status is 200, and it is `userToken` carrying the body's token |
| AuthHandlers.AdminLogout | server/controller/auth.controller.js:84-87 | admin logout always answers 200, leaves the store alone and clears the cookie `authToken` |
| AuthHandlers.AdminLogoutCorrected | server/controller/auth.controller.js:70 | the corrected admin logout clears `AdminToken`, the cookie admin login sets |
| AuthHandlers.UserLogout | server/controller/auth.controller.js:174-177 | user logout always answers 200, leaves the store alone and clears `userToken` |
| AuthHandlers.ProfileView | server/controller/auth.controller.js:219-226 | the update response has exactly Name, email, mobile, companyName, district and files, with files defaulting to [] |
| AuthHandlers.UpdateFailure | server/controller/auth.controller.js:187-208 | an update is refused with 404 "User not found" exactly when the id is unknown, otherwise with a 400; it goes through iff the id is known, a sent email and a sent mobile pass their checks, and a new email is not held by any User |
| AuthHandlers.UpdateProfile | server/controller/auth.controller.js:182-229 | 404 iff the id is unknown; any failure leaves the store unchanged; a 200 changes only that User, and only its four editable fields, each only when a truthy value is sent; the response shows the updated record; emails stay unique |
| AuthHandlers.FindCustomers | server/controller/auth.controller.js:232-245 | 404 iff there are no Users; otherwise 200 with count equal to the number of Users and record i being User i without its password |
| AuthHandlers.ApplyCookie | server/controller/auth.controller.js:164-175 | setting a cookie adds or replaces exactly that name, clearing removes exactly that name, and every other cookie is kept |
| AuthProperties.AdminRegisterSucceedsIff | server/controller/auth.controller.js:13-44 | admin registration succeeds iff every field is present, every format check passes and the email is new among Admins |
| AuthProperties.UserRegisterSucceedsIff | server/controller/auth.controller.js:95-137 | user registration succeeds iff every field is present, every format check passes and the email is new among Users |
| AuthProperties.AdminRegisterCheckOrder | server/controller/auth.controller.js:13-31 | each rung of the admin chain returns its own 400 with the store unchanged, once the earlier rungs pass: "All Fields are required" with the empty fields, "Invalid Email", "Invalid Mobile Number", "Provide Strong Password", "Email Already Registered" |
| AuthProperties.UserRegisterCheckOrder | server/controller/auth.controller.js:95-119 | each rung of the chain (empty, email, mobile, strength, duplicate) returns its own 400 message with the store unchanged, once the earlier rungs pass |
| AuthProperties.EmptyCheckNamesMissingFields | server/controller/auth.controller.js:13-16 | a form missing a field gets 400 with a non-empty error list naming exactly the missing or empty fields, and the store is unchanged |
| AuthProperties.RegisterDefaultsUnreachable | server/controller/auth.controller.js:130-131 | after a successful user registration, companyName and district are stored as sent and non-empty, so the empty-string defaults never apply |
| AuthProperties.CollectionsAreSeparate | server/controller/auth.controller.js:28-31 | whether an Admin can register does not depend on the Users, and the other way round |
| AuthProperties.AdminLoginLadder | server/controller/auth.controller.js:50-80 | a missing credential gives 400, an unknown email 400, a wrong password 401; otherwise 200 with a token signed for the Admin, the `AdminToken` cookie and the Admin without its password |
| AuthProperties.AdminLoginHidesPassword | server/controller/auth.controller.js:78 | a successful admin login returns exactly the Admin's _id, Name, email and mobile |
| AuthProperties.UserLoginLadder | server/controller/auth.controller.js:143-171 | the same 400/400/401/200 ladder for Users, with the `userToken` cookie and the whole User document |
| AuthProperties.UserLoginSendsPasswordHash | server/controller/auth.controller.js:171 | a successful user login sends the stored password hash in `data` |
| AuthProperties.UserRegisterThenLogin | server/controller/auth.controller.js:116-171 | if the hash library accepts a password against its own hash, registering a User and then logging in with the same email and password gives 200, a `userToken` signed for the new id and email, and data with that email |
| AuthProperties.AdminRegisterThenLogin | server/controller/auth.controller.js:28-80 | the same round trip for Admins, with the `AdminToken` cookie |
| AuthProperties.LogoutIdempotent | server/controller/auth.controller.js:84-87 | logging out twice gives the same cookies and the same response as logging out once, for both kinds |
| AuthProperties.UserLogoutEndsSession | server/controller/auth.controller.js:164-176 | after a user login the `userToken` cookie is present, and a user logout removes it |
| AuthProperties.AdminLogoutKeepsToken | server/controller/auth.controller.js:70-85 | as written, after an admin login and an admin logout the `AdminToken` cookie is still there with the login's token |
| AuthProperties.AdminLogoutCorrectedEndsSession | server/controller/auth.controller.js:70-85 | with the corrected cookie name, an admin login followed by logout leaves no `AdminToken` |
| AuthProperties.UpdateCheckOrder | server/controller/auth.controller.js:187-208 | an update is refused in this order: unknown id 404, invalid email 400, invalid mobile 400; after those checks it is refused iff a new email belongs to some User |
| AuthProperties.UpdateCannotTakeEmail | server/controller/auth.controller.js:202-207 | in a valid store, asking for another User's email is refused with 400 and changes nothing |
| AuthProperties.DistrictOnlyUpdate | server/controller/auth.controller.js:211-226 | updating only the district succeeds, shows the new district and keeps email, mobile and companyName |
| AuthProperties.CustomerListing | server/controller/auth.controller.js:237-245 | no Users gives the 404 "No customers found" with the store unchanged; otherwise 200 with the count of all Users |

## Left out

- `new URL(...)`: the parse is a parameter (`UrlPath`). What it yields for a given URL is not modelled.
- `Text.Lower`: only ASCII letters are mapped. Unicode case mapping is not modelled.
- Field types: request and record values are strings. A number-typed `mobile` and its `toString()` are not modelled. Non-string request values (objects, arrays) are not modelled either.
- `FileTypes.ExtensionFor`: an explicit type that names an inherited `Object.prototype` property (such as "constructor") reads as undefined here. In JavaScript it reads as that property.
- Download mechanics: `fetch`, the Blob, the link click, the toasts and `Date.now()` are I/O. The clock reading is a parameter.
- Client session: the logout handler, its storage clearing, its redirects and the try/catch `require` of the admin context are I/O or runtime wiring.
- View helpers: `getFileIcon`, `getFileColor`, the modals and the scroll locking are view code.
- `CustomerTable.ReachablePagesInRange`: the customer list is fixed while the actions run. A refetch that shrinks the list while a later page is open is not modelled, and it can leave the page beyond the page count.
- `checkEmpty`: its file is not part of this model. It is assumed to flag missing or `""` values and report their names.
- `bcrypt.hash`: modelled as a function of the password alone. The random salt is folded into it.
- `AuthHandlers.AdminLogin`: token claims, the signing key, the one-day expiry and token verification are not modelled. Neither are the cookie attributes (httpOnly, secure, sameSite, maxAge, path). Cookies are names and values only.
- Mongoose: `_id` is a natural number from a counter. `__v`, timestamps and schema defaults are not modelled. A new User has no `files` field.
- `AuthHandlers.UpdateProfile`: a malformed id (a cast error) would give a 500. So would a failed `save()`. Neither is modelled.
- `AuthHandlers.FindCustomers`: the catch branch that answers 500 on a database error is not modelled.
- Concurrency: requests run one at a time. The check-then-save race on email uniqueness is out of scope.
- Wiring: the Express route table, the route guards and the RTK Query wrappers are not modelled.

## Findings

| source | as written | input that shows it | evidently intended | confidence | as-written member | corrected member |
|---|---|---|---|---|---|---|
| server/controller/auth.controller.js:85 | admin logout clears the cookie `authToken` | an admin login that succeeds (it sets `AdminToken`), then an admin logout | clear `AdminToken`, the cookie admin login sets at line 70 | high, not executed | AuthProperties.AdminLogoutKeepsToken | AuthProperties.AdminLogoutCorrectedEndsSession |
| client/src/components/Auth/AdminData.jsx:139-140 | an explicit fileType outside the five keys indexes the extension table and gets `undefined` | a file with fileType "application/pdf" and originalName "report.pdf" downloads as "report.undefined" | fall back to the 'unknown' entry: the URL's extension, or 'file' | medium, not executed | FileTypes.MimeHintDownloadsAsUndefined | FileTypes.DownloadName |

=== FILE: auth_handlers.dfy ===
/**
 * The eight auth handlers, each a pure transition from the store and a
 * request to the new store and the HTTP response.
 */
module AuthHandlers {
  import opened Wrappers
  import opened AuthStore

  /** The JSON body of a response. */
  datatype Body =
    | Message(message: string)
    | Invalid(message: string, error: seq<string>)
    | Created(message: string, userId: Id)
    | LoggedIn(message: string, data: Doc, token: string)
    | Updated(message: string, data: Doc)
    | Customers(message: string, count: nat, result: seq<Doc>)

  /** What the response does to the client's cookies (only the name and value are modelled). */
  datatype CookieOp = NoCookie | SetCookie(name: string, value: string) | ClearCookie(name: string)

  datatype Response = Response(status: nat, body: Body, cookie: CookieOp)

  datatype Outcome = Outcome(store: Store, response: Response)

  /** A response without a cookie, leaving the store as it was. */
  function Reply(s: Store, status: nat, body: Body): Outcome {
    Outcome(s, Response(status, body, NoCookie))
  }

  /**
   * `checkEmpty({...})`: the names, in order, of the fields that were not
   * sent or were sent empty.
   */
  function EmptyFields(form: Form, keys: seq<string>): (r: seq<string>)
    ensures forall k :: k in r <==> k in keys && !Truthy(Get(form, k))
    ensures |r| <= |keys|
  {
    if |keys| == 0 then []
    else
      var rest := EmptyFields(form, keys[1..]);
      if Truthy(Get(form, keys[0])) then rest else [keys[0]] + rest
  }

  /** Every listed field was sent non-empty. */
  predicate AllPresent(form: Form, keys: seq<string>) {
    forall k :: k in keys ==> Truthy(Get(form, k))
  }


  /** The format and strength checks of registration, on a form whose fields are all present. */
  predicate WellFormed(lib: Lib, form: Form) {
    lib.isEmail(Field(form, "email")) && lib.isMobilePhone(Field(form, "mobile")) && lib.isStrongPassword(Field(form, "password"))
  }

  /**
   * The checks both registration handlers run before looking at the store:
   * empty fields, then email, then mobile, then password strength. `None`
   * when every check passes, else the body of the first failure.
   */
  function RegistrationFailure(lib: Lib, form: Form, keys: seq<string>, emptyMessage: string, weakMessage: string): (r: Option<Body>)
    requires "email" in keys && "mobile" in keys && "password" in keys
    ensures r.None? <==> AllPresent(form, keys) && WellFormed(lib, form)
    ensures !AllPresent(form, keys) ==> r == Some(Invalid(emptyMessage, EmptyFields(form, keys)))
    ensures AllPresent(form, keys) && !lib.isEmail(Field(form, "email")) ==> r == Some(Message("Invalid Email"))
    ensures AllPresent(form, keys) && lib.isEmail(Field(form, "email")) && !lib.isMobilePhone(Field(form, "mobile")) ==>
      r == Some(Message("Invalid Mobile Number"))
    ensures && AllPresent(form, keys) && lib.isEmail(Field(form, "email")) && lib.isMobilePhone(Field(form, "mobile"))
            && !lib.isStrongPassword(Field(form, "password"))
            ==> r == Some(Message(weakMessage))
  {
    var empty := EmptyFields(form, keys);
    if empty != [] then
      assert !AllPresent(form, keys) by { assert empty[0] in keys; }
      Some(Invalid(emptyMessage, empty))
    else
      if !lib.isEmail(Field(form, "email")) then Some(Message("Invalid Email"))
      else if !lib.isMobilePhone(Field(form, "mobile")) then Some(Message("Invalid Mobile Number"))
      else if !lib.isStrongPassword(Field(form, "password")) then Some(Message(weakMessage))
      else None
  }

  const AdminFields: seq<string> := ["name", "email", "mobile", "password"]

  const UserFields: seq<string> := ["name", "email", "mobile", "password", "companyName", "district"]

  /** `register`: create an Admin after the validation chain and the duplicate-email check. */
  function AdminRegister(s: Store, lib: Lib, form: Form): (o: Outcome)
    ensures o.response.cookie == NoCookie
    ensures o.response.status == 400 || o.response.status == 201
    ensures o.response.status == 400 <==> o.store == s
    ensures o.response.status == 201 ==>
      && AllPresent(form, AdminFields)
      && o.store.users == s.users
      && o.store.admins == s.admins + [Admin(s.nextId, Field(form, "name"), Field(form, "email"), Field(form, "mobile"), lib.hash(Field(form, "password")))]
      && o.response.body == Created("User registered successfully", s.nextId)
    ensures Valid(s) ==> Valid(o.store)
  {
    match RegistrationFailure(lib, form, AdminFields, "All Fields are required", "Provide Strong Password")
    case Some(body) => Reply(s, 400, body)
    case None =>
      if AdminByEmail(s.admins, Field(form, "email")).Some? then
        Reply(s, 400, Message("Email Already Registered"))
      else
        var a := Admin(s.nextId, Field(form, "name"), Field(form, "email"), Field(form, "mobile"), lib.hash(Field(form, "password")));
        Reply(s.(admins := s.admins + [a], nextId := s.nextId + 1), 201, Created("User registered successfully", a.id))
  }

  /**
   * `userregister`: create a User after the validation chain and the
   * duplicate-email check; `companyName || ""` and `district || ""` default
   * the two extra fields.
   */
  function UserRegister(s: Store, lib: Lib, form: Form): (o: Outcome)
    ensures o.response.cookie == NoCookie
    ensures o.response.status == 400 || o.response.status == 201
    ensures o.response.status == 400 <==> o.store == s
    ensures o.response.status == 201 ==>
      && AllPresent(form, UserFields)
      && o.store.admins == s.admins
      && o.store.nextId == s.nextId + 1
      && |o.store.users| == |s.users| + 1
      && o.store.users[..|s.users|] == s.users
      && var u := o.store.users[|s.users|];
         && u.id == s.nextId && u.name == Field(form, "name") && u.email == Field(form, "email")
         && u.mobile == Field(form, "mobile") && u.password == lib.hash(Field(form, "password"))
         && u.companyName == Field(form, "companyName") && u.district == Field(form, "district")
         && u.files.None?
         && o.response.body == Created("User registered successfully", u.id)
    ensures Valid(s) ==> Valid(o.store)
  {
    match RegistrationFailure(lib, form, UserFields, "All required fields must be filled", "Provide a Strong Password")
    case Some(body) => Reply(s, 400, body)
    case None =>
      if UserByEmail(s.users, Field(form, "email")).Some? then
        Reply(s, 400, Message("Email Already Registered"))
      else
        var company := Get(form, "companyName");
        var district := Get(form, "district");
        var u := User(s.nextId, Field(form, "name"), Field(form, "email"), Field(form, "mobile"), lib.hash(Field(form, "password")),
                      if Truthy(company) then company.value else "",
                      if Truthy(district) then district.value else "",
                      None);
        Reply(s.(users := s.users + [u], nextId := s.nextId + 1), 201, Created("User registered successfully", u.id))
  }

  /** `!email || !password`: the login form lacks a credential. */
  predicate LacksCredentials(form: Form) {
    !Truthy(Get(form, "email")) || !Truthy(Get(form, "password"))
  }

  /** `login`: the 400/400/401/200 ladder; on success an `AdminToken` cookie and the Admin without its password. */
  function AdminLogin(s: Store, lib: Lib, form: Form): (o: Outcome)
    ensures o.store == s
    ensures o.response.status in {200, 400, 401}
    ensures o.response.status == 200 <==> o.response.cookie.SetCookie?
    ensures o.response.cookie.SetCookie? ==> o.response.cookie.name == "AdminToken"
    ensures o.response.status == 200 ==>
      o.response.body.LoggedIn? && o.response.cookie.value == o.response.body.token
    ensures o.response.body.LoggedIn? ==> "password" !in o.response.body.data
  {
    if LacksCredentials(form) then
      Reply(s, 400, Message("Email and Password required"))
    else
      match AdminByEmail(s.admins, Field(form, "email"))
      case None => Reply(s, 400, Message("User not found"))
      case Some(i) =>
        var a := s.admins[i];
        if !lib.compare(Field(form, "password"), a.password) then
          Reply(s, 401, Message("Invalid credentials"))
        else
          var token := lib.sign(a.id, a.email);
          Outcome(s, Response(200, LoggedIn("Login success", WithoutPassword(AdminDoc(a)), token),
                              SetCookie("AdminToken", token)))
  }

  /** `userlogin`: the same ladder; on success a `userToken` cookie and the whole User document. */
  function UserLogin(s: Store, lib: Lib, form: Form): (o: Outcome)
    ensures o.store == s
    ensures o.response.status in {200, 400, 401}
    ensures o.response.status == 200 <==> o.response.cookie.SetCookie?
    ensures o.response.cookie.SetCookie? ==> o.response.cookie.name == "userToken"
    ensures o.response.status == 200 ==>
      o.response.body.LoggedIn? && o.response.cookie.value == o.response.body.token
  {
    if LacksCredentials(form) then
      Reply(s, 400, Message("Email and Password required"))
    else
      match UserByEmail(s.users, Field(form, "email"))
      case None => Reply(s, 400, Message("User not found"))
      case Some(i) =>
        var u := s.users[i];
        if !lib.compare(Field(form, "password"), u.password) then
          Reply(s, 401, Message("Invalid credentials"))
        else
          var token := lib.sign(u.id, u.email);
          Outcome(s, Response(200, LoggedIn("Login success", UserDoc(u), token), SetCookie("userToken", token)))
  }

  /** `logout`: clears the cookie named `authToken`. */
  function AdminLogout(s: Store): (o: Outcome)
    ensures o.store == s && o.response.status == 200
    ensures o.response.cookie == ClearCookie("authToken")
  {
    Outcome(s, Response(200, Message("Logout success"), ClearCookie("authToken")))
  }

  /** The admin logout with the cookie name admin login sets. */
  function AdminLogoutCorrected(s: Store): (o: Outcome)
    ensures o.store == s && o.response.status == 200
    ensures o.response.cookie == ClearCookie("AdminToken")
  {
    Outcome(s, Response(200, Message("Logout success"), ClearCookie("AdminToken")))
  }

  /** `userlogout`: clears the `userToken` cookie. */
  function UserLogout(s: Store): (o: Outcome)
    ensures o.store == s && o.response.status == 200
    ensures o.response.cookie == ClearCookie("userToken")
  {
    Outcome(s, Response(200, Message("Logout success"), ClearCookie("userToken")))
  }

  /** The fields of a profile update response: exactly these six, `files` defaulting to `[]`. */
  function ProfileView(u: User): (d: Doc)
    ensures d.Keys == {"Name", "email", "mobile", "companyName", "district", "files"}
    ensures d["files"] == FileList(u.files.GetOr([]))
    ensures d["Name"] == Str(u.name) && d["email"] == Str(u.email) && d["mobile"] == Str(u.mobile)
    ensures d["companyName"] == Str(u.companyName) && d["district"] == Str(u.district)
  {
    map["Name" := Str(u.name), "email" := Str(u.email), "mobile" := Str(u.mobile),
        "companyName" := Str(u.companyName), "district" := Str(u.district),
        "files" := FileList(u.files.GetOr([]))]
  }

  /** `field || old`: the supplied value when it is truthy, the current one otherwise. */
  function Overwrite(supplied: Option<string>, current: string): (r: string)
    ensures Truthy(supplied) ==> r == supplied.value
    ensures !Truthy(supplied) ==> r == current
  {
    if Truthy(supplied) then supplied.value else current
  }

  /** `u'` is `u` with each of the four editable fields overwritten only when the form gives a truthy value. */
  predicate Patched(u: User, u': User, form: Form) {
    && u'.id == u.id && u'.name == u.name && u'.password == u.password && u'.files == u.files
    && u'.email == Overwrite(Get(form, "email"), u.email)
    && u'.mobile == Overwrite(Get(form, "mobile"), u.mobile)
    && u'.companyName == Overwrite(Get(form, "companyName"), u.companyName)
    && u'.district == Overwrite(Get(form, "district"), u.district)
  }

  /** Why an update is refused, in the order the handler checks; `None` when it goes through. */
  function UpdateFailure(s: Store, lib: Lib, id: Id, form: Form): (r: Option<(nat, string)>)
    ensures r.Some? ==> r.value.0 == 404 || r.value.0 == 400
    ensures r == Some((404, "User not found")) <==> UserById(s.users, id).None?
    ensures r.None? <==>
      && UserById(s.users, id).Some?
      && (Truthy(Get(form, "email")) ==> lib.isEmail(Field(form, "email")))
      && (Truthy(Get(form, "mobile")) ==> lib.isMobilePhone(Field(form, "mobile")))
      && !(Truthy(Get(form, "email")) && Field(form, "email") != s.users[UserById(s.users, id).value].email
           && UserByEmail(s.users, Field(form, "email")).Some?)
  {
    match UserById(s.users, id)
    case None => Some((404, "User not found"))
    case Some(i) =>
      var email := Get(form, "email");
      var mobile := Get(form, "mobile");
      if Truthy(email) && !lib.isEmail(email.value) then Some((400, "Invalid Email"))
      else if Truthy(mobile) && !lib.isMobilePhone(mobile.value) then Some((400, "Invalid Mobile Number"))
      else if Truthy(email) && email.value != s.users[i].email && UserByEmail(s.users, email.value).Some? then
        Some((400, "Email already in use"))
      else None
  }

  /**
   * `updateUserProfile`: a partial update of one User; unknown id 404, bad
   * email or mobile 400, an email held by another User 400.
   */
  function UpdateProfile(s: Store, lib: Lib, id: Id, form: Form): (o: Outcome)
    ensures o.response.cookie == NoCookie
    ensures o.response.status in {200, 400, 404}
    ensures o.response.status == 404 <==> UserById(s.users, id).None?
    ensures o.response.status != 200 ==> o.store == s
    ensures o.response.status == 200 ==>
      && UserById(s.users, id).Some?
      && var i := UserById(s.users, id).value;
         && o.store.admins == s.admins && o.store.nextId == s.nextId
         && |o.store.users| == |s.users|
         && (forall j :: 0 <= j < |s.users| && j != i ==> o.store.users[j] == s.users[j])
         && Patched(s.users[i], o.store.users[i], form)
         && o.response.body == Updated("Profile updated successfully", ProfileView(o.store.users[i]))
    ensures Valid(s) ==> Valid(o.store)
  {
    match UpdateFailure(s, lib, id, form)
    case Some((status, message)) => Reply(s, status, Message(message))
    case None =>
      var i := UserById(s.users, id).value;
      var u := s.users[i];
      var u' := u.(email := Overwrite(Get(form, "email"), u.email),
                   mobile := Overwrite(Get(form, "mobile"), u.mobile),
                   companyName := Overwrite(Get(form, "companyName"), u.companyName),
                   district := Overwrite(Get(form, "district"), u.district));
      var s' := s.(users := s.users[i := u']);
      assert Valid(s) ==> Valid(s') by {
        if Valid(s) && u'.email != u.email {
          assert UserByEmail(s.users, u'.email).None?;
        }
      }
      Reply(s', 200, Updated("Profile updated successfully", ProfileView(u')))
  }

  /** `Findcustomer`: every User without its password, or 404 when there are none. */
  function FindCustomers(s: Store): (o: Outcome)
    ensures o.store == s && o.response.cookie == NoCookie
    ensures o.response.status == 404 <==> |s.users| == 0
    ensures o.response.status != 404 ==>
      && o.response.status == 200
      && o.response.body.Customers?
      && o.response.body.count == |s.users| == |o.response.body.result|
      && (forall i :: 0 <= i < |s.users| ==> o.response.body.result[i] == WithoutPassword(UserDoc(s.users[i])))
      && (forall d :: d in o.response.body.result ==> "password" !in d)
  {
    if |s.users| == 0 then
      Reply(s, 404, Message("No customers found"))
    else
      var result := seq(|s.users|, i requires 0 <= i < |s.users| => WithoutPassword(UserDoc(s.users[i])));
      Reply(s, 200, Customers("Customers fetched successfully", |result|, result))
  }

  /** The client's cookies, by name. */
  type Jar = map<string, string>

  /** The effect of a response's `Set-Cookie` on the client's cookies. */
  function ApplyCookie(jar: Jar, c: CookieOp): (j: Jar)
    ensures c.NoCookie? ==> j == jar
    ensures c.SetCookie? ==> j.Keys == jar.Keys + {c.name} && j[c.name] == c.value
    ensures c.ClearCookie? ==> j.Keys == jar.Keys - {c.name}
    ensures forall k :: k in j && !(c.SetCookie? && k == c.name) ==> k in jar && j[k] == jar[k]
  {
    match c
    case NoCookie => jar
    case SetCookie(name, value) => jar[name := value]
    case ClearCookie(name) => jar - {name}
  }
}

=== FILE: auth_properties.dfy ===
/**
 * Properties that relate the auth handlers to each other and to the store:
 * the order of the checks, registration followed by login, login followed
 * by logout, and the partial profile update.
 */
module AuthProperties {
  import opened Wrappers
  import opened AuthStore
  import opened AuthHandlers

  /** Admin registration succeeds exactly when every check passes and the email is new among Admins. */
  lemma AdminRegisterSucceedsIff(s: Store, lib: Lib, form: Form)
    ensures AdminRegister(s, lib, form).response.status == 201 <==>
      && AllPresent(form, AdminFields)
      && WellFormed(lib, form)
      && AdminByEmail(s.admins, Field(form, "email")).None?
  {
  }

  /** User registration succeeds exactly when every check passes and the email is new among Users. */
  lemma UserRegisterSucceedsIff(s: Store, lib: Lib, form: Form)
    ensures UserRegister(s, lib, form).response.status == 201 <==>
      && AllPresent(form, UserFields)
      && WellFormed(lib, form)
      && UserByEmail(s.users, Field(form, "email")).None?
  {
  }

  /**
   * The checks run in a fixed order; the first failing one decides the
   * 400 response, and the store is untouched.
   */
  lemma UserRegisterCheckOrder(s: Store, lib: Lib, form: Form)
    ensures var o := UserRegister(s, lib, form);
      && (!AllPresent(form, UserFields) ==>
            o == Reply(s, 400, Invalid("All required fields must be filled", EmptyFields(form, UserFields))))
      && (AllPresent(form, UserFields) && !lib.isEmail(Field(form, "email")) ==>
            o == Reply(s, 400, Message("Invalid Email")))
      && (AllPresent(form, UserFields) && lib.isEmail(Field(form, "email")) && !lib.isMobilePhone(Field(form, "mobile")) ==>
            o == Reply(s, 400, Message("Invalid Mobile Number")))
      && (AllPresent(form, UserFields) && WellFormed(lib, form) && UserByEmail(s.users, Field(form, "email")).Some? ==>
            o == Reply(s, 400, Message("Email Already Registered")))
      && (AllPresent(form, UserFields) && lib.isEmail(Field(form, "email")) && lib.isMobilePhone(Field(form, "mobile")) &&
            !lib.isStrongPassword(Field(form, "password")) ==>
            o == Reply(s, 400, Message("Provide a Strong Password")))
  {
  }

  /**
   * Admin registration runs the same checks in the same order, with its own
   * wording for the empty and weak-password failures.
   */
  lemma AdminRegisterCheckOrder(s: Store, lib: Lib, form: Form)
    ensures var o := AdminRegister(s, lib, form);
      && (!AllPresent(form, AdminFields) ==>
            o == Reply(s, 400, Invalid("All Fields are required", EmptyFields(form, AdminFields))))
      && (AllPresent(form, AdminFields) && !lib.isEmail(Field(form, "email")) ==>
            o == Reply(s, 400, Message("Invalid Email")))
      && (AllPresent(form, AdminFields) && lib.isEmail(Field(form, "email")) && !lib.isMobilePhone(Field(form, "mobile")) ==>
            o == Reply(s, 400, Message("Invalid Mobile Number")))
      && (AllPresent(form, AdminFields) && lib.isEmail(Field(form, "email")) && lib.isMobilePhone(Field(form, "mobile")) &&
            !lib.isStrongPassword(Field(form, "password")) ==>
            o == Reply(s, 400, Message("Provide Strong Password")))
      && (AllPresent(form, AdminFields) && WellFormed(lib, form) && AdminByEmail(s.admins, Field(form, "email")).Some? ==>
            o == Reply(s, 400, Message("Email Already Registered")))
  {
  }

  /** The empty check lists exactly the fields that were missing or empty, in form order. */
  lemma EmptyCheckNamesMissingFields(s: Store, lib: Lib, form: Form)
    requires !AllPresent(form, AdminFields)
    ensures var o := AdminRegister(s, lib, form);
      && o.response.status == 400 && o.store == s
      && o.response.body.Invalid?
      && o.response.body.error != []
      && forall k :: k in o.response.body.error <==> k in AdminFields && !Truthy(Get(form, k))
  {
    var k :| k in AdminFields && !Truthy(Get(form, k));
    assert k in EmptyFields(form, AdminFields);
  }

  /**
   * `companyName || ""` and `district || ""` never fall back: the empty
   * check already requires both, so a new User stores them as sent.
   */
  lemma RegisterDefaultsUnreachable(s: Store, lib: Lib, form: Form)
    requires UserRegister(s, lib, form).response.status == 201
    ensures var u := UserRegister(s, lib, form).store.users[|s.users|];
      u.companyName == Field(form, "companyName") != "" && u.district == Field(form, "district") != ""
  {
    assert UserFields[4] == "companyName" && UserFields[5] == "district";
    assert Truthy(Get(form, "companyName")) && Truthy(Get(form, "district"));
  }

  /**
   * Email uniqueness is per collection: whether an Admin can register does
   * not depend on the Users, and the other way round.
   */
  lemma CollectionsAreSeparate(s: Store, lib: Lib, form: Form, admins: seq<Admin>, users: seq<User>)
    ensures AdminRegister(s.(users := users), lib, form).response == AdminRegister(s, lib, form).response
    ensures UserRegister(s.(admins := admins), lib, form).response == UserRegister(s, lib, form).response
  {
  }

  /** The admin login ladder: 400 for a missing credential, 400 for an unknown email, 401 for a wrong password, else 200. */
  lemma AdminLoginLadder(s: Store, lib: Lib, form: Form)
    ensures var o := AdminLogin(s, lib, form);
      && (LacksCredentials(form) ==> o == Reply(s, 400, Message("Email and Password required")))
      && (!LacksCredentials(form) && AdminByEmail(s.admins, Field(form, "email")).None? ==>
            o == Reply(s, 400, Message("User not found")))
      && (!LacksCredentials(form) && AdminByEmail(s.admins, Field(form, "email")).Some? ==>
            var a := s.admins[AdminByEmail(s.admins, Field(form, "email")).value];
            && (!lib.compare(Field(form, "password"), a.password) ==> o == Reply(s, 401, Message("Invalid credentials")))
            && (lib.compare(Field(form, "password"), a.password) ==>
                  var token := lib.sign(a.id, a.email);
                  o.response == Response(200, LoggedIn("Login success", WithoutPassword(AdminDoc(a)), token),
                                         SetCookie("AdminToken", token))))
  {
  }

  /** The admin login response carries the Admin's id, name, email and mobile, and no password. */
  lemma AdminLoginHidesPassword(s: Store, lib: Lib, form: Form)
    requires AdminLogin(s, lib, form).response.status == 200
    ensures AdminLogin(s, lib, form).response.body.data.Keys == {"_id", "Name", "email", "mobile"}
  {
  }

  /** The user login ladder, the same as the admin one with the `userToken` cookie. */
  lemma UserLoginLadder(s: Store, lib: Lib, form: Form)
    ensures var o := UserLogin(s, lib, form);
      && (LacksCredentials(form) ==> o == Reply(s, 400, Message("Email and Password required")))
      && (!LacksCredentials(form) && UserByEmail(s.users, Field(form, "email")).None? ==>
            o == Reply(s, 400, Message("User not found")))
      && (!LacksCredentials(form) && UserByEmail(s.users, Field(form, "email")).Some? ==>
            var u := s.users[UserByEmail(s.users, Field(form, "email")).value];
            && (!lib.compare(Field(form, "password"), u.password) ==> o == Reply(s, 401, Message("Invalid credentials")))
            && (lib.compare(Field(form, "password"), u.password) ==>
                  var token := lib.sign(u.id, u.email);
                  o.response == Response(200, LoggedIn("Login success", UserDoc(u), token),
                                         SetCookie("userToken", token))))
  {
  }

  /** The user login response sends the whole User document, its stored password hash included. */
  lemma UserLoginSendsPasswordHash(s: Store, lib: Lib, form: Form)
    requires UserLogin(s, lib, form).response.status == 200
    ensures var data := UserLogin(s, lib, form).response.body.data;
      "password" in data && data["password"] == Str(s.users[UserByEmail(s.users, Field(form, "email")).value].password)
  {
  }

  /**
   * Registering a User and then logging in with the same email and password
   * succeeds, with a token signed for the new id and email, provided the
   * hash library accepts a password against its own hash.
   */
  lemma {:induction false} UserRegisterThenLogin(s: Store, lib: Lib, form: Form)
    requires UserRegister(s, lib, form).response.status == 201
    requires lib.compare(Field(form, "password"), lib.hash(Field(form, "password")))
    ensures var s' := UserRegister(s, lib, form).store;
      var o := UserLogin(s', lib, map["email" := Field(form, "email"), "password" := Field(form, "password")]);
      && o.response.status == 200
      && o.response.cookie == SetCookie("userToken", lib.sign(s.nextId, Field(form, "email")))
      && o.response.body.data["email"] == Str(Field(form, "email"))
  {
    UserRegisterSucceedsIff(s, lib, form);
    var s' := UserRegister(s, lib, form).store;
    var e := Field(form, "email");
    var p := Field(form, "password");
    assert UserFields[1] == "email" && UserFields[3] == "password";
    assert Truthy(Get(form, "email")) && Truthy(Get(form, "password"));
    var credentials := map["email" := e, "password" := p];
    assert Field(credentials, "email") == e && Field(credentials, "password") == p;
    assert !LacksCredentials(credentials);
    var n := |s.users|;
    var r := s'.users[n];
    assert s'.users == s.users + [r];
    assert r.email == e && r.password == lib.hash(p) && r.id == s.nextId;
    FindFirstAppended(s.users, r, (u: User) => u.email == e);
    assert UserByEmail(s'.users, e) == Some(n);
    assert lib.compare(p, r.password);
  }

  /** The same round trip for Admins: register, then log in with the same credentials. */
  lemma {:induction false} AdminRegisterThenLogin(s: Store, lib: Lib, form: Form)
    requires AdminRegister(s, lib, form).response.status == 201
    requires lib.compare(Field(form, "password"), lib.hash(Field(form, "password")))
    ensures var s' := AdminRegister(s, lib, form).store;
      var o := AdminLogin(s', lib, map["email" := Field(form, "email"), "password" := Field(form, "password")]);
      && o.response.status == 200
      && o.response.cookie == SetCookie("AdminToken", lib.sign(s.nextId, Field(form, "email")))
      && o.response.body.data["email"] == Str(Field(form, "email"))
  {
    AdminRegisterSucceedsIff(s, lib, form);
    var s' := AdminRegister(s, lib, form).store;
    var e := Field(form, "email");
    var p := Field(form, "password");
    assert AdminFields[1] == "email" && AdminFields[3] == "password";
    assert Truthy(Get(form, "email")) && Truthy(Get(form, "password"));
    var credentials := map["email" := e, "password" := p];
    assert Field(credentials, "email") == e && Field(credentials, "password") == p;
    assert !LacksCredentials(credentials);
    var n := |s.admins|;
    var r := s'.admins[n];
    assert s'.admins == s.admins + [r];
    assert r.email == e && r.password == lib.hash(p) && r.id == s.nextId;
    FindFirstAppended(s.admins, r, (a: Admin) => a.email == e);
    assert AdminByEmail(s'.admins, e) == Some(n);
    assert lib.compare(p, r.password);
  }

  /** Logging out twice leaves the same cookies and the same response as logging out once. */
  lemma LogoutIdempotent(s: Store, jar: Jar)
    ensures var once := ApplyCookie(jar, UserLogout(s).response.cookie);
      ApplyCookie(once, UserLogout(s).response.cookie) == once
    ensures var once := ApplyCookie(jar, AdminLogout(s).response.cookie);
      ApplyCookie(once, AdminLogout(s).response.cookie) == once
    ensures UserLogout(UserLogout(s).store) == UserLogout(s)
    ensures AdminLogout(AdminLogout(s).store) == AdminLogout(s)
  {
  }

  /** A user login followed by a user logout leaves no `userToken` cookie. */
  lemma UserLogoutEndsSession(s: Store, lib: Lib, form: Form, jar: Jar)
    requires UserLogin(s, lib, form).response.status == 200
    ensures "userToken" in ApplyCookie(jar, UserLogin(s, lib, form).response.cookie)
    ensures "userToken" !in ApplyCookie(ApplyCookie(jar, UserLogin(s, lib, form).response.cookie), UserLogout(s).response.cookie)
  {
  }

  /** As written, an admin login followed by an admin logout leaves the `AdminToken` cookie in place. */
  lemma AdminLogoutKeepsToken(s: Store, lib: Lib, form: Form, jar: Jar)
    requires AdminLogin(s, lib, form).response.status == 200
    ensures var token := AdminLogin(s, lib, form).response.cookie.value;
      var after := ApplyCookie(ApplyCookie(jar, AdminLogin(s, lib, form).response.cookie), AdminLogout(s).response.cookie);
      "AdminToken" in after && after["AdminToken"] == token
  {
  }

  /** With the corrected cookie name, an admin login followed by logout leaves no `AdminToken`. */
  lemma AdminLogoutCorrectedEndsSession(s: Store, lib: Lib, form: Form, jar: Jar)
    requires AdminLogin(s, lib, form).response.status == 200
    ensures "AdminToken" !in
      ApplyCookie(ApplyCookie(jar, AdminLogin(s, lib, form).response.cookie), AdminLogoutCorrected(s).response.cookie)
  {
  }

  /**
   * A profile update is refused, in this order: unknown id 404, invalid
   * email 400, invalid mobile 400, email held by another User 400; otherwise
   * it succeeds.
   */
  lemma UpdateCheckOrder(s: Store, lib: Lib, id: Id, form: Form)
    ensures var o := UpdateProfile(s, lib, id, form);
      var e := Get(form, "email");
      var m := Get(form, "mobile");
      && (UserById(s.users, id).None? ==> o == Reply(s, 404, Message("User not found")))
      && (UserById(s.users, id).Some? ==>
            var u := s.users[UserById(s.users, id).value];
            && (Truthy(e) && !lib.isEmail(e.value) ==> o == Reply(s, 400, Message("Invalid Email")))
            && (!(Truthy(e) && !lib.isEmail(e.value)) && Truthy(m) && !lib.isMobilePhone(m.value) ==>
                  o == Reply(s, 400, Message("Invalid Mobile Number")))
            && (!(Truthy(e) && !lib.isEmail(e.value)) && !(Truthy(m) && !lib.isMobilePhone(m.value)) ==>
                  (o.response.status == 400 <==>
                    Truthy(e) && e.value != u.email &&
                    exists j :: 0 <= j < |s.users| && s.users[j].email == e.value)))
  {
  }

  /** An email held by another User cannot be taken over: such an update is refused and changes nothing. */
  lemma UpdateCannotTakeEmail(s: Store, lib: Lib, id: Id, form: Form, j: nat)
    requires UserById(s.users, id).Some?
    requires j < |s.users| && j != UserById(s.users, id).value
    requires Truthy(Get(form, "email")) && Field(form, "email") == s.users[j].email
    requires Valid(s)
    ensures UpdateProfile(s, lib, id, form).store == s
    ensures UpdateProfile(s, lib, id, form).response.status == 400
  {
    var i := UserById(s.users, id).value;
    assert s.users[i].email != s.users[j].email;
    assert UserByEmail(s.users, Field(form, "email")).Some?;
  }

  /** Updating only the district changes only the district, and the response shows the new one. */
  lemma DistrictOnlyUpdate(s: Store, lib: Lib, id: Id)
    requires UserById(s.users, id).Some?
    ensures var o := UpdateProfile(s, lib, id, map["district" := "New"]);
      var u := s.users[UserById(s.users, id).value];
      && o.response.status == 200
      && o.response.body.data["district"] == Str("New")
      && o.response.body.data["email"] == Str(u.email)
      && o.response.body.data["mobile"] == Str(u.mobile)
      && o.response.body.data["companyName"] == Str(u.companyName)
  {
  }

  /** With no Users the listing is a 404; with some, a 200 counting them all. */
  lemma CustomerListing(s: Store)
    ensures |s.users| == 0 ==> FindCustomers(s) == Reply(s, 404, Message("No customers found"))
    ensures |s.users| > 0 ==> FindCustomers(s).response.status == 200 && FindCustomers(s).response.body.count == |s.users|
  {
  }
}

=== FILE: auth_store.dfy ===
/**
 * The server's persistent state as the auth handlers see it: the Admin
 * ("Auth") and User collections, the library calls the handlers make, and
 * the documents they send back.
 */
module AuthStore {
  import opened Wrappers
  import FileTypes

  /** A document id; fresh ids come from the store's counter. */
  type Id = nat

  datatype Admin = Admin(id: Id, name: string, email: string, mobile: string, password: string)

  datatype User = User(
    id: Id,
    name: string,
    email: string,
    mobile: string,
    password: string,
    companyName: string,
    district: string,
    files: Option<seq<FileTypes.FileRef>>)

  /** Both collections in insertion order, and the next id to hand out. */
  datatype Store = Store(admins: seq<Admin>, users: seq<User>, nextId: Id)

  /**
   * The foreign calls, left uninterpreted: `validator.isEmail`,
   * `validator.isMobilePhone(_, "en-IN")`, `validator.isStrongPassword`,
   * `bcrypt.hash(_, 10)`, `bcrypt.compare` and `jwt.sign({userId, email}, key, 1 day)`.
   */
  datatype Lib = Lib(
    isEmail: string -> bool,
    isMobilePhone: string -> bool,
    isStrongPassword: string -> bool,
    hash: string -> string,
    compare: (string, string) -> bool,
    sign: (Id, string) -> string)

  /** A request body: the fields the client sent. */
  type Form = map<string, string>

  /** `req.body.key`, `None` when the field was not sent. */
  function Get(form: Form, key: string): Option<string> {
    if key in form then Some(form[key]) else None
  }

  /** The text of a field, `""` when it was not sent (read only once its presence is checked). */
  function Field(form: Form, key: string): (v: string)
    ensures key in form ==> v == form[key]
  {
    if key in form then form[key] else ""
  }

  /** The position of the first element satisfying `p`, as `findOne` returns the first match. */
  function FindFirst<T>(s: seq<T>, p: T -> bool): (r: Option<nat>)
    ensures r.Some? ==> r.value < |s| && p(s[r.value])
    ensures r.Some? ==> forall j :: 0 <= j < r.value ==> !p(s[j])
    ensures r.None? <==> forall j :: 0 <= j < |s| ==> !p(s[j])
  {
    if |s| == 0 then None
    else if p(s[0]) then Some(0)
    else
      match FindFirst(s[1..], p)
      case None => None
      case Some(i) => Some(i + 1)
  }

  /** Appending a match to a sequence without one makes the new element the first match. */
  lemma FindFirstAppended<T>(s: seq<T>, x: T, p: T -> bool)
    requires FindFirst(s, p).None? && p(x)
    ensures FindFirst(s + [x], p) == Some(|s|)
  {
    var r := FindFirst(s + [x], p);
    assert (s + [x])[|s|] == x;
    assert forall j :: 0 <= j < |s| ==> (s + [x])[j] == s[j];
  }

  /** `Auth.findOne({ email })`. */
  function AdminByEmail(admins: seq<Admin>, email: string): Option<nat> {
    FindFirst(admins, (a: Admin) => a.email == email)
  }

  /** `User.findOne({ email })`. */
  function UserByEmail(users: seq<User>, email: string): Option<nat> {
    FindFirst(users, (u: User) => u.email == email)
  }

  /** `User.findById(id)`. */
  function UserById(users: seq<User>, id: Id): Option<nat> {
    FindFirst(users, (u: User) => u.id == id)
  }

  /**
   * The store's invariant: emails are unique within each collection (an
   * email may be both an Admin's and a User's), ids are unique within each
   * collection and below the counter.
   */
  predicate Valid(s: Store) {
    && (forall i, j :: 0 <= i < j < |s.admins| ==> s.admins[i].email != s.admins[j].email)
    && (forall i, j :: 0 <= i < j < |s.users| ==> s.users[i].email != s.users[j].email)
    && (forall i, j :: 0 <= i < j < |s.admins| ==> s.admins[i].id != s.admins[j].id)
    && (forall i, j :: 0 <= i < j < |s.users| ==> s.users[i].id != s.users[j].id)
    && (forall i :: 0 <= i < |s.admins| ==> s.admins[i].id < s.nextId)
    && (forall i :: 0 <= i < |s.users| ==> s.users[i].id < s.nextId)
  }

  /** A field value of a document sent back as JSON. */
  datatype Value = Str(s: string) | Num(n: int) | FileList(files: seq<FileTypes.FileRef>)

  /** A JSON document: field name to value. */
  type Doc = map<string, Value>

  /** An Admin record as a document (`user._doc`), password hash included. */
  function AdminDoc(a: Admin): (d: Doc)
    ensures d.Keys == {"_id", "Name", "email", "mobile", "password"}
    ensures d["_id"] == Num(a.id) && d["Name"] == Str(a.name) && d["email"] == Str(a.email)
    ensures d["mobile"] == Str(a.mobile) && d["password"] == Str(a.password)
  {
    map["_id" := Num(a.id), "Name" := Str(a.name), "email" := Str(a.email),
        "mobile" := Str(a.mobile), "password" := Str(a.password)]
  }

  /** A User record as a document, password hash included; `files` only when the record has one. */
  function UserDoc(u: User): (d: Doc)
    ensures "password" in d && d["password"] == Str(u.password)
    ensures "email" in d && d["email"] == Str(u.email)
    ensures "files" in d <==> u.files.Some?
  {
    var d := map["_id" := Num(u.id), "Name" := Str(u.name), "email" := Str(u.email),
                 "mobile" := Str(u.mobile), "password" := Str(u.password),
                 "companyName" := Str(u.companyName), "district" := Str(u.district)];
    match u.files
    case Some(fs) => d["files" := FileList(fs)]
    case None => d
  }

  /** A document with its password field taken out (destructuring it away, or `select("-password")`). */
  function WithoutPassword(d: Doc): (r: Doc)
    ensures "password" !in r
    ensures forall k :: k in r <==> k in d && k != "password"
    ensures forall k :: k in r ==> r[k] == d[k]
  {
    d - {"password"}
  }
}

=== FILE: customer_table.dfy ===
/**
 * The list logic of the admin customer table: the search filter, the page
 * slice of five rows, the page count and the Previous/Next buttons, and the
 * search box that sends the table back to page 1.
 */
module CustomerTable {
  import opened Wrappers
  import opened Text

  /** One customer row as the table receives it; any field may be absent. */
  datatype Customer = Customer(
    name: Option<string>,
    email: Option<string>,
    mobile: Option<string>,
    companyName: Option<string>)

  /** Rows per page. */
  const ItemsPerPage: nat := 5

  /** `(field || "")`: an absent field reads as the empty string. */
  function OrEmpty(f: Option<string>): string {
    f.GetOr("")
  }

  /**
   * The search predicate: the lower-cased term occurs in the lower-cased
   * name, email or company name, or the term as typed occurs in the mobile
   * number.
   */
  predicate Matches(u: Customer, term: string) {
    || Includes(Lower(OrEmpty(u.name)), Lower(term))
    || Includes(Lower(OrEmpty(u.email)), Lower(term))
    || Includes(OrEmpty(u.mobile), term)
    || Includes(Lower(OrEmpty(u.companyName)), Lower(term))
  }

  /** `s` has no ASCII letter, upper or lower case. */
  predicate NoLetters(s: string) {
    forall i :: 0 <= i < |s| ==> !('A' <= s[i] <= 'Z') && !('a' <= s[i] <= 'z')
  }

  /** A piece of a string without letters has no letters either. */
  lemma NoLettersIncludeNoLetters(m: string, t: string, k: nat)
    requires NoLetters(m)
    requires k < |t|
    ensures Includes(m, t) ==> !('A' <= t[k] <= 'Z') && !('a' <= t[k] <= 'z')
  {
    if Includes(m, t) {
      var j :| OccursAt(m, t, j);
      assert m[j..j + |t|][k] == t[k];
    }
  }

  /**
   * For a customer whose mobile number has no ASCII letters, the search
   * ignores the case of the term: typing it in upper or lower case shows the
   * same rows.
   */
  lemma {:induction false} SearchIgnoresCase(u: Customer, term: string)
    requires NoLetters(OrEmpty(u.mobile))
    ensures Matches(u, term) <==> Matches(u, Lower(term))
  {
    LowerIdempotent(term);
    var m := OrEmpty(u.mobile);
    if Lower(term) != term {
      var k :| 0 <= k < |term| && Lower(term)[k] != term[k];
      NoLettersIncludeNoLetters(m, term, k);
      NoLettersIncludeNoLetters(m, Lower(term), k);
    }
  }

  /** `xs` is `ys` with some elements dropped and the rest in their original order. */
  ghost predicate IsSubsequence<T>(xs: seq<T>, ys: seq<T>)
    decreases |ys|
  {
    if |xs| == 0 then true
    else if |ys| == 0 then false
    else (xs[0] == ys[0] && IsSubsequence(xs[1..], ys[1..])) || IsSubsequence(xs, ys[1..])
  }

  /** `users.filter(...)`: the rows the search keeps. */
  function Filtered(users: seq<Customer>, term: string): (r: seq<Customer>)
    ensures IsSubsequence(r, users)
    ensures forall u :: u in r <==> u in users && Matches(u, term)
    ensures forall u :: multiset(r)[u] == if Matches(u, term) then multiset(users)[u] else 0
    ensures |r| <= |users|
  {
    if |users| == 0 then []
    else
      var rest := Filtered(users[1..], term);
      assert users == [users[0]] + users[1..];
      if Matches(users[0], term) then
        assert ([users[0]] + rest)[1..] == rest;
        [users[0]] + rest
      else
        rest
  }

  /** An empty search keeps every row, in order. */
  lemma {:induction false} EmptySearchKeepsAll(users: seq<Customer>)
    ensures Filtered(users, "") == users
  {
    if |users| > 0 {
      IncludesEmpty(Lower(OrEmpty(users[0].name)));
      EmptySearchKeepsAll(users[1..]);
      assert users == [users[0]] + users[1..];
    }
  }

  /** `Math.ceil(n / itemsPerPage)`. */
  function PageCount(n: nat): (c: nat)
    ensures c * ItemsPerPage >= n
    ensures c > 0 ==> (c - 1) * ItemsPerPage < n
  {
    (n + ItemsPerPage - 1) / ItemsPerPage
  }

  /** How `Array.prototype.slice` reads an index: negative counts from the end, then clamped to `[0, len]`. */
  function SliceIndex(i: int, len: nat): (k: nat)
    ensures k <= len
  {
    if i < 0 then (if len + i < 0 then 0 else len + i)
    else if i > len then len
    else i
  }

  /**
   * `s.slice(start, end)`: for non-negative bounds, the elements from `start`
   * up to but excluding `end`, both cut back to the length of `s`.
   */
  function Slice<T>(s: seq<T>, start: int, end: int): (r: seq<T>)
    ensures |r| <= |s|
    ensures 0 <= start <= end ==>
      |r| == (if end < |s| then end else |s|) - (if start < |s| then start else |s|)
    ensures 0 <= end <= start ==> r == []
    ensures 0 <= start ==> forall i :: 0 <= i < |r| ==> start + i < |s| && r[i] == s[start + i]
  {
    var a := SliceIndex(start, |s|);
    var b := SliceIndex(end, |s|);
    if a < b then s[a..b] else []
  }

  /** `filteredUsers.slice((currentPage - 1) * itemsPerPage, currentPage * itemsPerPage)`. */
  function CurrentPage<T>(filtered: seq<T>, page: int): (r: seq<T>)
    ensures page >= 1 ==>
      var lo := if (page - 1) * ItemsPerPage < |filtered| then (page - 1) * ItemsPerPage else |filtered|;
      var hi := if page * ItemsPerPage < |filtered| then page * ItemsPerPage else |filtered|;
      r == filtered[lo..hi]
    ensures page >= 1 ==> |r| <= ItemsPerPage && |r| <= |filtered|
    ensures page > PageCount(|filtered|) ==> r == []
  {
    Slice(filtered, (page - 1) * ItemsPerPage, page * ItemsPerPage)
  }

  /** Row `i` of the filtered list is shown on page `i / 5 + 1`, at position `i % 5`. */
  lemma RowOnItsPage<T>(filtered: seq<T>, i: nat)
    requires i < |filtered|
    ensures var p := i / ItemsPerPage + 1;
      1 <= p <= PageCount(|filtered|) &&
      i % ItemsPerPage < |CurrentPage(filtered, p)| &&
      CurrentPage(filtered, p)[i % ItemsPerPage] == filtered[i]
  {
  }

  /** The first `k` pages, laid end to end. */
  function Pages<T>(filtered: seq<T>, k: nat): seq<T> {
    if k == 0 then [] else Pages(filtered, k - 1) + CurrentPage(filtered, k)
  }

  /** Stepping through every page from 1 to the page count shows each row exactly once, in order. */
  lemma {:induction false} PagesCoverList<T>(filtered: seq<T>)
    ensures Pages(filtered, PageCount(|filtered|)) == filtered
  {
    var c := PageCount(|filtered|);
    PagesPrefix(filtered, c);
    assert c * ItemsPerPage >= |filtered|;
  }

  lemma {:induction false} PagesPrefix<T>(filtered: seq<T>, k: nat)
    ensures var hi := if k * ItemsPerPage < |filtered| then k * ItemsPerPage else |filtered|;
      Pages(filtered, k) == filtered[..hi]
  {
    if k > 0 {
      PagesPrefix(filtered, k - 1);
    }
  }

  /** The table's state: the search box and the current page. */
  datatype Table = Table(term: string, page: int)

  /** The user's actions on the table. */
  datatype Action = Search(term: string) | Previous | Next

  /** The page count the pagination bar shows for the table's current search. */
  function LastPage(users: seq<Customer>, t: Table): nat {
    PageCount(|Filtered(users, t.term)|)
  }

  /** The table when the dashboard first renders. */
  const Initial := Table("", 1)

  /**
   * One action: typing sets the term and returns to page 1, Previous is
   * `Math.max(prev - 1, 1)` and Next moves on only while the page is below
   * the page count.
   */
  function Step(users: seq<Customer>, t: Table, a: Action): (t': Table)
    ensures a.Search? ==> t' == Table(a.term, 1)
    ensures a.Previous? ==> t'.term == t.term && t'.page >= 1
    ensures a.Previous? && t.page > 1 ==> t'.page == t.page - 1
    ensures a.Previous? && t.page <= 1 ==> t'.page == 1
    ensures a.Next? ==> t'.term == t.term && t.page <= t'.page <= t.page + 1
    ensures a.Next? ==> (t'.page == t.page + 1 <==> t.page < LastPage(users, t))
  {
    match a
    case Search(term) => Table(term, 1)
    case Previous => t.(page := if t.page - 1 > 1 then t.page - 1 else 1)
    case Next => t.(page := if t.page < LastPage(users, t) then t.page + 1 else t.page)
  }

  /** The page lies between 1 and the page count (or is 1 when there is nothing to show). */
  predicate PageInRange(users: seq<Customer>, t: Table) {
    1 <= t.page && (t.page == 1 || t.page <= LastPage(users, t))
  }

  /** Every action keeps the page in range. */
  lemma StepKeepsPageInRange(users: seq<Customer>, t: Table, a: Action)
    requires PageInRange(users, t)
    ensures PageInRange(users, Step(users, t, a))
  {
  }

  /** The table after a sequence of actions, starting from `t`. */
  function Run(users: seq<Customer>, t: Table, actions: seq<Action>): Table
    decreases |actions|
  {
    if |actions| == 0 then t else Run(users, Step(users, t, actions[0]), actions[1..])
  }

  /** From the initial table, no sequence of actions takes the page outside `[1, max(1, ceil(n / 5))]`. */
  lemma {:induction false} ReachablePagesInRange(users: seq<Customer>, actions: seq<Action>)
    ensures PageInRange(users, Run(users, Initial, actions))
  {
    RunKeepsPageInRange(users, Initial, actions);
  }

  lemma {:induction false} RunKeepsPageInRange(users: seq<Customer>, t: Table, actions: seq<Action>)
    requires PageInRange(users, t)
    ensures PageInRange(users, Run(users, t, actions))
    decreases |actions|
  {
    if |actions| > 0 {
      StepKeepsPageInRange(users, t, actions[0]);
      RunKeepsPageInRange(users, Step(users, t, actions[0]), actions[1..]);
    }
  }

  /** On an in-range page of a non-empty result, at least one row is shown. */
  lemma InRangePageShowsRows(users: seq<Customer>, t: Table)
    requires PageInRange(users, t)
    requires |Filtered(users, t.term)| > 0
    ensures |CurrentPage(Filtered(users, t.term), t.page)| > 0
  {
  }
}

=== FILE: file_types.dfy ===
/**
 * How the admin dashboard classifies an uploaded document and names it on
 * download: the file type from an explicit hint or the URL's extension, the
 * image extension fallback, and the rewritten download filename.
 */
module FileTypes {
  import opened Wrappers
  import opened Text

  /** A document reference as stored on a customer; any field may be absent. */
  datatype FileRef = FileRef(url: Option<string>, originalName: Option<string>, fileType: Option<string>)

  /**
   * What `new URL(u).pathname` yields for `u`, or `None` when the constructor
   * throws (a relative or malformed URL).
   */
  type UrlPath = string -> Option<string>

  /** The five classes the download code has an extension for. */
  const Kinds: set<string> := {"pdf", "image", "document", "spreadsheet", "unknown"}

  /** Extensions `getFileType` calls an image (no 'ico'). */
  const ImageTypeExtensions: seq<string> := ["jpg", "jpeg", "png", "gif", "webp", "bmp", "svg"]

  /** Extensions `getImageExtension` accepts ('ico' included). */
  const ImageExtensions: seq<string> := ["jpg", "jpeg", "png", "gif", "webp", "bmp", "svg", "ico"]

  const DocumentExtensions: seq<string> := ["doc", "docx"]

  const SpreadsheetExtensions: seq<string> := ["xls", "xlsx", "csv"]

  /** `getFileExtensionFromUrl`: the lower-cased last dot segment of the URL's path; `None` for no URL. */
  function ExtensionFromUrl(url: Option<string>, path: UrlPath): (r: Option<string>)
    ensures r.None? <==> !Truthy(url)
    ensures r.Some? ==> forall i :: 0 <= i < |r.value| ==> r.value[i] != '.'
    ensures Truthy(url) && path(url.value).Some? ==> r == Some(Lower(AfterLastDot(path(url.value).value)))
    ensures Truthy(url) && path(url.value).None? ==> r == Some(Lower(AfterLastDot(url.value)))
  {
    if !Truthy(url) then None
    else
      var p := path(url.value).GetOr(url.value);
      Some(Lower(AfterLastDot(p)))
  }

  /** `getImageExtension`: the URL's extension when it names an image format, 'jpg' otherwise. */
  function ImageExtension(url: Option<string>, path: UrlPath): (r: string)
    ensures r in ImageExtensions
    ensures var ext := ExtensionFromUrl(url, path);
      ext.Some? && ext.value in ImageExtensions ==> r == ext.value
    ensures var ext := ExtensionFromUrl(url, path);
      !(ext.Some? && ext.value in ImageExtensions) ==> r == "jpg"
  {
    ImageExtensionOf(ExtensionFromUrl(url, path))
  }

  /** The choice `getImageExtension` makes once it has the URL's extension `ext`. */
  function ImageExtensionOf(ext: Option<string>): (r: string)
    ensures r in ImageExtensions
    ensures ext.Some? && ext.value in ImageExtensions ==> r == ext.value
    ensures !(ext.Some? && ext.value in ImageExtensions) ==> r == "jpg"
  {
    if ext.Some? && ext.value in ImageExtensions then ext.value else "jpg"
  }

  /** The class a lower-cased extension falls into, as `getFileType` decides it. */
  function ClassOf(ext: Option<string>): (k: string)
    ensures k in Kinds
    ensures k == "pdf" <==> ext == Some("pdf")
    ensures k == "image" <==> ext.Some? && ext.value in ImageTypeExtensions
    ensures k == "document" <==> ext.Some? && ext.value in DocumentExtensions
    ensures k == "spreadsheet" <==> ext.Some? && ext.value in SpreadsheetExtensions
  {
    if ext == Some("pdf") then "pdf"
    else if ext.Some? && ext.value in ImageTypeExtensions then "image"
    else if ext.Some? && ext.value in DocumentExtensions then "document"
    else if ext.Some? && ext.value in SpreadsheetExtensions then "spreadsheet"
    else "unknown"
  }

  /**
   * `getFileType`: the explicit hint, lower-cased, when there is one;
   * otherwise the class of the lower-cased last dot segment of the raw URL
   * (no URL parsing here).
   */
  function FileType(f: FileRef): (k: string)
    ensures Truthy(f.fileType) ==> k == Lower(f.fileType.value)
    ensures !Truthy(f.fileType) ==> k in Kinds
    ensures !Truthy(f.fileType) && f.url.None? ==> k == "unknown"
  {
    if Truthy(f.fileType) then Lower(f.fileType.value)
    else
      var ext := match f.url
        case Some(u) => Some(Lower(AfterLastDot(u)))
        case None => None;
      ClassOf(ext)
  }

  /**
   * With no hint, the class is decided by the lower-cased text after the last
   * dot of the URL as stored.
   */
  lemma NoHintClassFromUrl(f: FileRef, stem: string, ext: string)
    requires !Truthy(f.fileType)
    requires f.url == Some(stem + "." + ext)
    requires forall i :: 0 <= i < |ext| ==> ext[i] != '.'
    ensures FileType(f) == ClassOf(Some(Lower(ext)))
  {
    AfterLastDotOfDotted(stem, ext);
  }

  /**
   * With no hint and no dot in the URL, `split(".").pop()` is the whole URL,
   * so the class is decided by the lower-cased URL itself.
   */
  lemma NoHintClassFromDotFreeUrl(f: FileRef, u: string)
    requires !Truthy(f.fileType)
    requires f.url == Some(u)
    requires forall i :: 0 <= i < |u| ==> u[i] != '.'
    ensures FileType(f) == ClassOf(Some(Lower(u)))
  {
    var r := AfterLastDot(u);
    if |r| < |u| {
      assert u[|u| - |r| - 1] == '.';
    }
  }

  /**
   * A URL ending in ".ico" with no hint is classed unknown, although its
   * image extension is 'ico': whether or not the URL parses, as long as a
   * parsed path ends in ".ico" too.
   */
  lemma IcoIsUnknownButAnImageExtension(f: FileRef, path: UrlPath, stem: string, pathStem: string)
    requires !Truthy(f.fileType)
    requires f.url == Some(stem + ".ico")
    requires path(stem + ".ico").None? || path(stem + ".ico") == Some(pathStem + ".ico")
    ensures FileType(f) == "unknown"
    ensures ImageExtension(f.url, path) == "ico"
  {
    assert stem + ".ico" == stem + "." + "ico";
    assert Lower("ico") == "ico";
    NoHintClassFromUrl(f, stem, "ico");
    IcoUrlExtension(f.url, path, stem, pathStem);
  }

  /** Both readings of a URL ending in ".ico" give the extension 'ico', which is an image extension. */
  lemma IcoUrlExtension(url: Option<string>, path: UrlPath, stem: string, pathStem: string)
    requires url == Some(stem + ".ico")
    requires path(stem + ".ico").None? || path(stem + ".ico") == Some(pathStem + ".ico")
    ensures ExtensionFromUrl(url, path) == Some("ico")
    ensures ImageExtension(url, path) == "ico"
  {
    assert ImageExtensions[7] == "ico";
    assert stem + ".ico" == stem + "." + "ico";
    assert pathStem + ".ico" == pathStem + "." + "ico";
    assert Lower("ico") == "ico";
    AfterLastDotOfDotted(stem, "ico");
    AfterLastDotOfDotted(pathStem, "ico");
  }

  /**
   * `extensions[fileType]`: the extension table of `downloadFile`, indexed
   * by class; a key outside the five classes reads as `undefined` (`None`).
   */
  function ExtensionFor(kind: string, f: FileRef, path: UrlPath): (r: Option<string>)
    ensures r.Some? <==> kind in Kinds
    ensures kind == "pdf" ==> r == Some("pdf")
    ensures kind == "image" ==> r == Some(ImageExtension(f.url, path))
    ensures kind == "document" ==> r == Some("docx")
    ensures kind == "spreadsheet" ==> r == Some("xlsx")
    ensures kind == "unknown" && Truthy(ExtensionFromUrl(f.url, path)) ==> r == ExtensionFromUrl(f.url, path)
    ensures kind == "unknown" && !Truthy(ExtensionFromUrl(f.url, path)) ==> r == Some("file")
  {
    match kind
    case "pdf" => Some("pdf")
    case "image" => Some(ImageExtension(f.url, path))
    case "document" => Some("docx")
    case "spreadsheet" => Some("xlsx")
    case "unknown" =>
      var ext := ExtensionFromUrl(f.url, path);
      Some(if Truthy(ext) then ext.value else "file")
    case _ => None
  }

  /** `file.originalName || \`document_${Date.now()}\``, with the clock reading passed in. */
  function DownloadBaseName(f: FileRef, now: nat): (r: string)
    ensures Truthy(f.originalName) ==> r == f.originalName.value
    ensures !Truthy(f.originalName) ==> StripExtension(r) == r
  {
    if Truthy(f.originalName) then f.originalName.value
    else
      var r := "document_" + Decimal(now);
      assert forall k :: !ExtensionAt(r, k) by {
        forall k | ExtensionAt(r, k) ensures false {
        }
      }
      r
  }

  /** `${x}` in a template literal: the text itself, or "undefined" for a missing value. */
  function Rendered(x: Option<string>): string {
    if x.Some? then x.value else "undefined"
  }

  /**
   * The filename `downloadFile` gives the link, as written: the base name
   * cut where the regular expression's match begins (whole when nothing
   * matches), a dot, and the table's extension, which for a hint outside the
   * five classes is the text "undefined".
   */
  function DownloadNameAsWritten(f: FileRef, now: nat, path: UrlPath): (r: string)
    ensures var n := DownloadBaseName(f, now);
            var x := Rendered(ExtensionFor(FileType(f), f, path));
            && (forall k :: ExtensionAt(n, k) ==> r == n[..k] + "." + x)
            && ((forall k :: !ExtensionAt(n, k)) ==> r == n + "." + x)
    ensures !Truthy(f.originalName) ==>
      r == "document_" + Decimal(now) + "." + Rendered(ExtensionFor(FileType(f), f, path))
  {
    StripExtension(DownloadBaseName(f, now)) + "." + Rendered(ExtensionFor(FileType(f), f, path))
  }

  /**
   * An original name `<stem>.<e>` loses `.e` and gains the table's extension
   * for the file's class; a class outside the five gives `<stem>.undefined`
   * as written and the 'unknown' entry once corrected.
   */
  lemma DownloadNameReplacesExtension(f: FileRef, now: nat, path: UrlPath, stem: string, e: string)
    requires f.originalName == Some(stem + "." + e)
    requires e != "" && forall i :: 0 <= i < |e| ==> e[i] != '.' && e[i] != '/'
    ensures DownloadNameAsWritten(f, now, path) == stem + "." + Rendered(ExtensionFor(FileType(f), f, path))
    ensures FileType(f) !in Kinds ==> DownloadNameAsWritten(f, now, path) == stem + ".undefined"
    ensures FileType(f) !in Kinds ==> DownloadName(f, now, path) == stem + "." + ExtensionFor("unknown", f, path).value
    ensures FileType(f) in Kinds ==> DownloadName(f, now, path) == stem + "." + ExtensionFor(FileType(f), f, path).value
  {
    var name := stem + "." + e;
    assert Truthy(f.originalName) by { assert |name| > 0; }
    assert DownloadBaseName(f, now) == name;
    StripAppendedExtension(stem, e);
    assert stem + "." + "undefined" == stem + ".undefined";
  }

  /**
   * A hint such as "application/pdf" names no class: "report.pdf" with that
   * hint downloads as "report.undefined".
   */
  lemma MimeHintDownloadsAsUndefined(f: FileRef, now: nat, path: UrlPath, stem: string)
    requires f.fileType == Some("application/pdf")
    requires f.originalName == Some(stem + ".pdf")
    ensures FileType(f) == "application/pdf"
    ensures DownloadNameAsWritten(f, now, path) == stem + ".undefined"
  {
    assert stem + ".pdf" == stem + "." + "pdf";
    assert Lower("application/pdf") == "application/pdf";
    DownloadNameReplacesExtension(f, now, path, stem, "pdf");
  }

  /**
   * The download filename with the gap closed: a hint outside the five
   * classes falls back to the 'unknown' entry (the URL's extension or 'file').
   */
  function DownloadName(f: FileRef, now: nat, path: UrlPath): (r: string)
    ensures exists k :: (k in Kinds && ExtensionFor(k, f, path).Some? &&
                         r == StripExtension(DownloadBaseName(f, now)) + "." + ExtensionFor(k, f, path).value)
    ensures FileType(f) in Kinds ==> r == DownloadNameAsWritten(f, now, path)
    ensures FileType(f) !in Kinds ==>
      r == StripExtension(DownloadBaseName(f, now)) + "." + ExtensionFor("unknown", f, path).value
  {
    var kind := FileType(f);
    var k := if kind in Kinds then kind else "unknown";
    StripExtension(DownloadBaseName(f, now)) + "." + ExtensionFor(k, f, path).value
  }

  /** Without a hint, the class is always one of the five, so the written filename is already well-formed. */
  lemma NoHintNameIsDefined(f: FileRef, now: nat, path: UrlPath)
    requires !Truthy(f.fileType)
    ensures DownloadName(f, now, path) == DownloadNameAsWritten(f, now, path)
    ensures ExtensionFor(FileType(f), f, path).Some?
  {
  }
}

=== FILE: text.dfy ===
/**
 * The handful of JavaScript string operations the customer table and the
 * download code rely on: `toLowerCase`, `includes`, `split('.').pop()`,
 * the `/\.[^/.]+$/` replacement and the decimal rendering of a number.
 */
module Text {

  /** `toLowerCase` on one character; only the ASCII letters are mapped. */
  function LowerChar(c: char): char {
    if 'A' <= c <= 'Z' then (c as int + 32) as char else c
  }

  /** `toLowerCase` on a string, character by character. */
  function Lower(s: string): (r: string)
    ensures |r| == |s|
    ensures forall i :: 0 <= i < |s| ==> r[i] == LowerChar(s[i])
    ensures forall i :: 0 <= i < |r| ==> !('A' <= r[i] <= 'Z')
  {
    seq(|s|, i requires 0 <= i < |s| => LowerChar(s[i]))
  }

  /** Lower-casing twice is lower-casing once. */
  lemma LowerIdempotent(s: string)
    ensures Lower(Lower(s)) == Lower(s)
  {
    assert forall i :: 0 <= i < |s| ==> Lower(Lower(s))[i] == Lower(s)[i];
  }

  /** `t` occurs in `s` starting at position `i`. */
  ghost predicate OccursAt(s: string, t: string, i: int) {
    0 <= i && i + |t| <= |s| && s[i..i + |t|] == t
  }

  /** `s.includes(t)`: whether `t` is a contiguous piece of `s`. */
  function Includes(s: string, t: string): (b: bool)
    ensures b <==> exists i :: OccursAt(s, t, i)
    decreases |s|
  {
    if |t| <= |s| && s[..|t|] == t then
      assert OccursAt(s, t, 0);
      true
    else if |s| == 0 then
      false
    else
      var b := Includes(s[1..], t);
      if b then
        assert exists i :: OccursAt(s, t, i) by {
          var j :| OccursAt(s[1..], t, j);
          assert s[j + 1..j + 1 + |t|] == s[1..][j..j + |t|];
          assert OccursAt(s, t, j + 1);
        }
        true
      else
        assert forall i | OccursAt(s, t, i) :: i > 0 && OccursAt(s[1..], t, i - 1) by {
          forall i | OccursAt(s, t, i) ensures i > 0 && OccursAt(s[1..], t, i - 1) {
            assert i != 0;
            assert s[1..][i - 1..i - 1 + |t|] == s[i..i + |t|];
          }
        }
        false
  }

  /** The empty string is part of every string, so `s.includes("")` always holds. */
  lemma IncludesEmpty(s: string)
    ensures Includes(s, "")
  {
    assert OccursAt(s, "", 0);
  }

  /**
   * `s.split('.').pop()`: the text after the last dot, or all of `s` when it
   * has none. It is the longest suffix of `s` free of dots.
   */
  function AfterLastDot(s: string): (r: string)
    ensures |r| <= |s| && r == s[|s| - |r|..]
    ensures forall i :: 0 <= i < |r| ==> r[i] != '.'
    ensures |r| < |s| ==> s[|s| - |r| - 1] == '.'
    decreases |s|
  {
    if |s| == 0 then ""
    else if s[|s| - 1] == '.' then ""
    else AfterLastDot(s[..|s| - 1]) + [s[|s| - 1]]
  }

  /** Whatever precedes the last dot, `AfterLastDot` returns the dot-free text after it. */
  lemma {:induction false} AfterLastDotOfDotted(a: string, b: string)
    requires forall i :: 0 <= i < |b| ==> b[i] != '.'
    ensures AfterLastDot(a + "." + b) == b
    decreases |b|
  {
    var s := a + "." + b;
    if |b| > 0 {
      assert s[..|s| - 1] == a + "." + b[..|b| - 1];
      AfterLastDotOfDotted(a, b[..|b| - 1]);
      assert b == b[..|b| - 1] + [b[|b| - 1]];
    }
  }

  /**
   * The regular expression `/\.[^/.]+$/` matches `s` at position `k`: a dot
   * followed by at least one character, none of them a dot or a slash, up to
   * the end of the string.
   */
  ghost predicate ExtensionAt(s: string, k: int) {
    0 <= k < |s| - 1 && s[k] == '.' &&
    forall j :: k < j < |s| ==> s[j] != '.' && s[j] != '/'
  }

  /** `s.replace(/\.[^/.]+$/, "")`: drop the last `.xxx` suffix, if there is one. */
  function StripExtension(s: string): (r: string)
    ensures forall k :: ExtensionAt(s, k) ==> r == s[..k]
    ensures (forall k :: !ExtensionAt(s, k)) ==> r == s
    ensures r == s || exists k :: ExtensionAt(s, k)
  {
    var ext := AfterLastDot(s);
    var k := |s| - |ext| - 1;
    if |ext| < |s| && ext != "" && (forall j :: 0 <= j < |ext| ==> ext[j] != '/') then
      assert ExtensionAt(s, k) by {
        forall j | k < j < |s| ensures s[j] != '.' && s[j] != '/' {
          assert s[j] == ext[j - k - 1];
        }
      }
      ExtensionAtUnique(s, k);
      s[..k]
    else
      assert forall k' :: !ExtensionAt(s, k') by {
        forall k' | ExtensionAt(s, k') ensures false {
          LastDotIsExtension(s, k');
        }
      }
      s
  }

  /** Stripping undoes appending an extension: a dot and a non-empty suffix without dots or slashes. */
  lemma StripAppendedExtension(base: string, ext: string)
    requires ext != ""
    requires forall i :: 0 <= i < |ext| ==> ext[i] != '.' && ext[i] != '/'
    ensures StripExtension(base + "." + ext) == base
  {
    var s := base + "." + ext;
    assert ExtensionAt(s, |base|) by {
      forall j | |base| < j < |s| ensures s[j] != '.' && s[j] != '/' {
        assert s[j] == ext[j - |base| - 1];
      }
    }
    assert s[..|base|] == base;
  }

  /** At most one position matches: any match is at the last dot. */
  lemma ExtensionAtUnique(s: string, k: int)
    requires ExtensionAt(s, k)
    ensures forall k' :: ExtensionAt(s, k') ==> k' == k
  {
  }

  /** A match sits exactly at the dot `AfterLastDot` stops at, and its suffix is non-empty. */
  lemma LastDotIsExtension(s: string, k: int)
    requires ExtensionAt(s, k)
    ensures var ext := AfterLastDot(s);
      |ext| < |s| && k == |s| - |ext| - 1 && ext != "" &&
      forall j :: 0 <= j < |ext| ==> ext[j] != '/'
  {
    var ext := AfterLastDot(s);
    var m := |s| - |ext| - 1;
    if |ext| < |s| {
      forall j | 0 <= j < |ext| ensures ext[j] != '/' {
        assert ext[j] == s[m + 1 + j];
      }
    }
  }

  /** The number a string of decimal digits denotes, most significant digit first. */
  function DigitsValue(r: string): int {
    if |r| == 0 then 0 else DigitsValue(r[..|r| - 1]) * 10 + (r[|r| - 1] as int - '0' as int)
  }

  /**
   * The decimal digits of `n`, as `${n}` renders a non-negative integer:
   * digits only, denoting `n`, with no leading zero.
   */
  function Decimal(n: nat): (r: string)
    ensures |r| >= 1
    ensures forall i :: 0 <= i < |r| ==> '0' <= r[i] <= '9'
    ensures DigitsValue(r) == n
    ensures r[0] == '0' ==> n == 0
  {
    var d := ['0' + (n % 10) as char];
    if n < 10 then d
    else
      var r := Decimal(n / 10) + d;
      assert r[..|r| - 1] == Decimal(n / 10);
      r
  }
}

=== FILE: wrappers.dfy ===
/** The optional value used for JavaScript's `undefined`/`null` fields and lookups. */
module Wrappers {

  datatype Option<+T> = None | Some(value: T) {

    /** The value, or `default` when there is none (JavaScript's `x || default` for a present x). */
    function GetOr(default: T): T {
      match this
      case Some(v) => v
      case None => default
    }
  }

  /** JavaScript truthiness of an optional string: present and not the empty string. */
  predicate Truthy(s: Option<string>) {
    s.Some? && s.value != ""
  }
}
